=== FILE: README.md ===
# Shape-change logging for pandas pipelines, in Dafny

This project models `logs/log_shape.py`, the decorator that logs how a
DataFrame's shape changes when it passes through one step of a pipeline.
The model has three parts:

- `calculate_shape_change` turns two `(rows, cols)` shapes into per-axis
  deltas. Each delta is a signed string, and "no change" is a bare `"0"`.
- `format_log_message` lays out one log line. The shape before, the shape
  after and the change are each centred in a column of `max_length`
  characters (18 by default), and the line ends with
  `module.function(df_name)`.
- `log_shape_change(df_name, logger)` wraps a function. The wrapper finds
  the frame, either the keyword argument called `df_name` or else the first
  positional argument. It calls the function with the arguments unchanged,
  logs one line and returns the function's result.

The modules follow the same split:

| file | module | contents |
|---|---|---|
| `wrappers.dfy` | `Wrappers` | `Option` |
| `decimal.dfy` | `Decimal` | `str(int)`, `f"{x:+}"`, and a reference parser `ParseInt` that states the renderings lose nothing |
| `pystr.dfy` | `PyStr` | `str.replace`, `repr` of a string, and centring with the `^` format specification |
| `shape_change.dfy` | `ShapeChange` | `calculate_shape_change` |
| `message.dfy` | `Message` | `format_log_message` |
| `decorator.dfy` | `Decorator` | the wrapper and the repository's own demonstration |

Python values are modelled with their own rules:

- The text `str` shows for a tuple of strings is each element's `repr`, so
  the change column reads `('-2', '0')`.
- Centring puts the smaller half of the padding on the left.
- `kwargs.get` answers None for a missing key.

Behaviour of the code worth noting:

- A result without `.shape` raises `AttributeError` at
  `logs/log_shape.py:87`.
- `shape_change` is a tuple of strings, so the change column shows each
  element with its quotes, e.g. `('-2', '0')`.
- A frame found through the keyword argument gets no DataFrame check. Any
  value with a `.shape` is accepted. A value without one raises
  `AttributeError` at line 85 before the function runs.
- When no keyword matches and there are no positional arguments,
  `args[0]` raises `IndexError`.

## Model

| member | source | states |
|---|---|---|
| Decimal.IntToString | logs/log_shape.py:33-34 | `str` of an int: a canonical numeral worth x for x >= 0; "-" then a canonical numeral worth -x for x < 0 |
| Decimal.SignedString | logs/log_shape.py:55-56 | `f"{x:+}"`: the sign is "+" exactly when x >= 0 and "-" exactly when x < 0, followed by a canonical numeral worth the magnitude |
| Decimal.ParseIntToString | logs/log_shape.py:33-34 | `str` of an int, as it appears in a printed shape, parses back to the same int |
| Decimal.ParseSignedString | logs/log_shape.py:55-56 | `f"{x:+}"` always carries a sign and parses back to `x` |
| Decimal.NatToStringOfValue | logs/log_shape.py:55-56 | a canonical numeral is exactly the rendering of its value; Python never writes a leading zero, which is why "+0" can only come from zero |
| PyStr.UnescapeEscape | logs/log_shape.py:35 | the escaped body of a `repr` reads back as the original string |
| PyStr.StrRepr | logs/log_shape.py:35 | `repr` of a string opens and closes with the quote Python picks (double only when the text has a single quote and no double quote) and is at least two characters longer than the text |
| PyStr.StrReprRoundTrip | logs/log_shape.py:35 | `repr` of every string reads back, between its quotes, as the original string |
| PyStr.StrReprPlain | logs/log_shape.py:35 | a string without `'`, `"`, `\`, newline, carriage return or tab is shown by `repr` between single quotes, unchanged |
| PyStr.Centre | logs/log_shape.py:33-35 | the field has length max(width, len); the text sits at the smaller half of the padding; text at least as wide as the field is unchanged |
| PyStr.CentreUnique | logs/log_shape.py:33-35 | the centred field is the one string of that length that holds the text at the left offset with only spaces around it (both directions) |
| PyStr.CentreInjective | logs/log_shape.py:33-35 | text with no leading or trailing space can be recovered from its centred field |
| ShapeChange.DeltaString | logs/log_shape.py:53-56 | the sign rule: "0" exactly for zero; otherwise a sign followed by the magnitude; the string parses back to the difference |
| ShapeChange.DeltaFormIsCanonical | logs/log_shape.py:55-56 | every string of the delta form is the rendering of the number it parses to |
| PyStr.Replace | logs/log_shape.py:55-56 | `str.replace`, scanning left to right: text in which the pattern never occurs comes back unchanged; an occurrence at the start is replaced; a replacement no longer than the pattern never lengthens the text, and one of equal length keeps its length |
| ShapeChange.AxisChangeIsSignRule | logs/log_shape.py:55-56 | `f"{x:+}".replace("+0", "0")` equals the sign rule for every int: the replacement fires on zero only |
| ShapeChange.AxisChange | logs/log_shape.py:55-56 | one axis as written in the source, equal to the sign rule for every int |
| ShapeChange.CalculateShapeChange | logs/log_shape.py:40-58 | each component is the sign-rule rendering of new minus old on its axis, and parses back to that difference |
| ShapeChange.SwapMirrorsChange | logs/log_shape.py:53-58 | swapping old and new shapes flips the sign of each non-zero component and keeps "0" |
| ShapeChange.ThreeRowsToOne | logs/log_shape.py:53-58 | (3, 2) to (1, 2) gives ('-2', '0') |
| Message.FormatLogMessage | logs/log_shape.py:9-37 | for every width, the line is "\| ", the centred shape before, " --> ", the centred shape after, " = ", the centred change, " \| " and `module.function(df_name)`, each at the offset the preceding parts' lengths give; each column's text sits where centring puts it |
| Message.LaidIsLine | logs/log_shape.py:37 | that layout leaves no freedom: a string with those parts at those offsets is exactly the line |
| Message.FittedColumns | logs/log_shape.py:33-37 | when each column's text fits, it starts at 2 + (w-len)/2, 7 + w + (w-len)/2 and 10 + 2w + (w-len)/2 |
| Message.ColumnsAlign | logs/log_shape.py:33-37 | when every column fits, the separators " --> ", " = " and " \| " sit at offsets that depend on the width alone, so consecutive lines line up |
| Message.ShapeTextInjective | logs/log_shape.py:33-34 | distinct shapes print differently |
| Message.DeltaChangeTextInjective | logs/log_shape.py:35 | distinct shape changes print differently |
| Message.MessageDeterminesColumns | logs/log_shape.py:33-37 | a line whose columns fit determines the shape before, the shape after and the call signature |
| Decorator.Resolve | logs/log_shape.py:79-84 | the named keyword argument wins when present and not None; otherwise the first positional argument if it is a DataFrame; otherwise `IndexError` (no positional) or `ValueError` (not a frame) |
| Decorator.ResolvedComesFromCall | logs/log_shape.py:79-84 | a frame is found exactly when the keyword hits or the first positional is a DataFrame, and the frame found is that argument |
| Decorator.Wrapper | logs/log_shape.py:77-100 | the function runs at most once and with the original arguments; on a resolution error the function is not called and nothing is logged, and a non-DataFrame first positional argument on the fallback path raises `ValueError` with the source's message; a missing `.shape` raises `AttributeError` and logs nothing; the function's exceptions propagate unchanged; when the frame and the result both have a shape the call returns the function's result and exactly one line is logged, reporting the frame's shape, the result's shape and their change |
| Decorator.WrapperIsTransparent | logs/log_shape.py:85-100 | once the frame has a shape, the decorated call raises what the undecorated call raises, and, when the result also has a shape, returns what the undecorated call returns |
| Decorator.PipeDemonstration | logs/log_shape.py:107-119 | `df.pipe(t)` on a (3, 2) frame with `df_name="df"` falls back to the positional frame, calls `t` once and returns its (1, 2) result, logging one line |
| Decorator.PipeDemonstrationLine | logs/log_shape.py:107-119 | that line shows "(3, 2)" at offset 8, "(1, 2)" at 31, "('-2', '0')" at 49, and ends with "__main__.t(df)" |

## Left out

- `src/main.py` is not part of this model. It only configures the log sinks.
- pandas is not modelled. A value is a frame, another object with a two-dimensional `.shape`, None, or something without `.shape`. `df.iloc[:1]` in the demonstration becomes the wrapped function's reply on that one call.
- `inspect.getmodule(func).__name__` and `func.__name__` are configuration inputs. Reflection is not modelled, including a `getmodule` that returns None.
- `functools.wraps` is not modelled. It copies metadata and changes no behaviour.
- The logger is the sequence of messages passed to `logger.info`. Sinks, levels and failures inside the logger are out of scope.
- `df_name` is a string or None. Any other value makes line 81 raise `UnboundLocalError`, because `df` was never assigned. That is outside the annotated type, so it is not modelled.
- `max_length` is a natural number. A negative width makes the format specification itself invalid.
- Shapes have exactly two components. Other shapes, from the result or from a keyword-resolved value, are not modelled. A shape of three or more components passes `calculate_shape_change`, which reads only the first two, and its full tuple is printed in the shape column next to a two-component change. A shape with fewer than two components raises `IndexError` at line 53 or 54, after `func` has run and before anything is logged.
- `PyStr.StrRepr` escapes backslash, the chosen quote, newline, carriage return and tab. Other non-printable characters, which Python shows as `\x..`, `\u....` or `\U........`, are not modelled. The demonstration and every shape change contain none of them.
- `PyStr.Replace` requires a non-empty pattern. Python's behaviour for an empty pattern is never used here, since the only pattern is "+0".

=== FILE: decimal.dfy ===
/**
  Decimal rendering of Python integers: `str(n)` and the sign-forcing format
  `f"{n:+}"`, together with a reference parser used to state that the
  renderings lose no information.
 */
module Decimal {
  import opened Wrappers

  predicate IsDigit(c: char) {
    '0' <= c <= '9'
  }

  function DigitValue(c: char): (d: nat)
    requires IsDigit(c)
    ensures d < 10
  {
    (c as int) - ('0' as int)
  }

  function DigitChar(d: nat): (c: char)
    requires d < 10
    ensures IsDigit(c) && DigitValue(c) == d
  {
    (('0' as int) + d) as char
  }

  predicate AllDigits(s: string) {
    forall i :: 0 <= i < |s| ==> IsDigit(s[i])
  }

  /** A canonical numeral: non-empty, digits only, and no leading zero unless it is "0" itself. */
  predicate IsNumeral(s: string) {
    && |s| > 0
    && AllDigits(s)
    && (s[0] == '0' ==> |s| == 1)
  }

  /** The value of a string of decimal digits, most significant digit first. */
  function NumeralValue(s: string): nat
    requires AllDigits(s)
  {
    if |s| == 0 then 0 else 10 * NumeralValue(s[..|s| - 1]) + DigitValue(s[|s| - 1])
  }

  /** `str(n)` for a non-negative Python int. */
  function NatToString(n: nat): (s: string)
    ensures IsNumeral(s)
    ensures n == 0 <==> s == "0"
    ensures n < 10 <==> |s| == 1
  {
    if n < 10 then [DigitChar(n)] else NatToString(n / 10) + [DigitChar(n % 10)]
  }

  lemma {:induction false} ValueOfNatToString(n: nat)
    ensures NumeralValue(NatToString(n)) == n
  {
    if n >= 10 {
      var s := NatToString(n);
      assert s[..|s| - 1] == NatToString(n / 10);
      ValueOfNatToString(n / 10);
    }
  }

  /** A numeral is never worth less than its leading digit. */
  lemma {:induction false} LeadingDigitBound(s: string)
    requires |s| > 0 && AllDigits(s)
    ensures NumeralValue(s) >= DigitValue(s[0])
  {
    if |s| > 1 {
      var p := s[..|s| - 1];
      assert p[0] == s[0];
      LeadingDigitBound(p);
    }
  }

  lemma {:induction false} NatToStringOfValue(s: string)
    requires IsNumeral(s)
    ensures NatToString(NumeralValue(s)) == s
  {
    if |s| > 1 {
      var p := s[..|s| - 1];
      assert p[0] == s[0];
      LeadingDigitBound(p);
      NatToStringOfValue(p);
      var v := NumeralValue(s);
      assert v / 10 == NumeralValue(p) && v % 10 == DigitValue(s[|s| - 1]);
      assert s == p + [s[|s| - 1]];
    }
  }

  /** `str(x)` for any Python int: a minus sign for negatives, no sign otherwise. */
  function IntToString(x: int): (s: string)
    ensures x >= 0 ==> IsNumeral(s) && NumeralValue(s) == x
    ensures x < 0 ==> |s| >= 2 && s[0] == '-' && IsNumeral(s[1..]) && NumeralValue(s[1..]) == -x
  {
    ValueOfNatToString(if x < 0 then -x else x);
    if x < 0 then "-" + NatToString(-x) else NatToString(x)
  }

  /** `f"{x:+}"` for a Python int: the sign is always written, zero rendering as "+0". */
  function SignedString(x: int): (s: string)
    ensures |s| >= 2
    ensures s[0] == '+' <==> x >= 0
    ensures s[0] == '-' <==> x < 0
    ensures IsNumeral(s[1..]) && NumeralValue(s[1..]) == (if x < 0 then -x else x)
  {
    ValueOfNatToString(if x < 0 then -x else x);
    if x < 0 then "-" + NatToString(-x) else "+" + NatToString(x)
  }

  /**
    Reference decoder: an optional sign followed by a canonical numeral.
    "-0" is refused so that every integer has exactly one accepted spelling
    per sign convention.
   */
  function ParseInt(s: string): Option<int> {
    if |s| > 0 && (s[0] == '+' || s[0] == '-') then
      var body := s[1..];
      if !IsNumeral(body) then None
      else if s[0] == '-' && body == "0" then None
      else if s[0] == '-' then Some(0 - NumeralValue(body) as int)
      else Some(NumeralValue(body))
    else if IsNumeral(s) then Some(NumeralValue(s))
    else None
  }

  lemma ParseIntToString(x: int)
    ensures ParseInt(IntToString(x)) == Some(x)
  {
    var s := IntToString(x);
    if x < 0 {
      assert s[1..] == NatToString(-x);
    }
  }

  lemma ParseSignedString(x: int)
    ensures ParseInt(SignedString(x)) == Some(x)
  {
    var s := SignedString(x);
    assert s[1..] == NatToString(if x < 0 then -x else x);
  }
}

=== FILE: decorator.dfy ===
/**
  `log_shape_change(df_name, logger)(func)`: the wrapper that finds the data
  frame among the call's arguments, calls `func` unchanged, and logs one line
  describing how the frame's shape changed.
 */
module Decorator {
  import opened Wrappers
  import opened ShapeChange
  import opened Message
  import opened PyStr
  import opened Decimal

  /** A call argument or result, as far as the wrapper can tell values apart. */
  datatype Val =
    | Frame(rows: nat, cols: nat)   // a pandas DataFrame
    | Shaped(rows: nat, cols: nat)  // any other object with a two-dimensional `.shape`
    | NoneVal                       // Python's None
    | Plain                         // any object without `.shape`

  /** `v.shape`, or None where Python raises AttributeError. */
  function ShapeOf(v: Val): Option<Shape> {
    match v
    case Frame(r, c) => Some(Shape(r, c))
    case Shaped(r, c) => Some(Shape(r, c))
    case _ => None
  }

  /** The positional and keyword arguments of one call. */
  datatype Call = Call(args: seq<Val>, kwargs: map<string, Val>)

  /** What the wrapped function does with a call: return a value or raise `E`. */
  datatype Reply<E> = Returned(value: Val) | Raised(error: E)

  /** How a call through the wrapper ends. */
  datatype Outcome<E> =
    | Ok(value: Val)
    | IndexError             // `args[0]` with no positional arguments
    | ValueError(message: string)
    | AttributeError         // `.shape` on a value without one
    | Propagated(error: E)   // raised by the wrapped function, passed on as is

  /**
    What one call through the wrapper shows: its outcome, the calls it made to
    the wrapped function, and the messages it passed to `logger.info`.
   */
  datatype Trace<E> = Trace(outcome: Outcome<E>, calls: seq<Call>, logged: seq<string>)

  /**
    The decorator's configuration: `df_name` and the logger come from
    `log_shape_change`; the module and function names are what reflection
    on `func` finds.
   */
  datatype Config = Config(dfName: Option<string>, moduleName: string, funcName: string)

  const NotAFrameMessage: string := "Expected a DataFrame as the first argument"

  /** Where the frame was found, or why it was not. */
  datatype Resolution = Resolved(df: Val) | NoPositional | NotAFrame

  /** `kwargs.get(name)`: None when the key is missing. */
  function Get(kwargs: map<string, Val>, name: string): Val {
    if name in kwargs then kwargs[name] else NoneVal
  }

  /** A configured name whose keyword argument is present and not None. */
  predicate NamedHit(dfName: Option<string>, kwargs: map<string, Val>) {
    dfName.Some? && dfName.value in kwargs && kwargs[dfName.value] != NoneVal
  }

  /** Argument resolution, as the wrapper's first statements do it. */
  function Resolve(dfName: Option<string>, args: seq<Val>, kwargs: map<string, Val>): (r: Resolution)
    ensures NamedHit(dfName, kwargs) ==> r == Resolved(kwargs[dfName.value])
    ensures !NamedHit(dfName, kwargs) && |args| == 0 ==> r == NoPositional
    ensures !NamedHit(dfName, kwargs) && |args| > 0 ==>
              (args[0].Frame? ==> r == Resolved(args[0])) && (!args[0].Frame? ==> r == NotAFrame)
  {
    var df := if dfName.Some? then Get(kwargs, dfName.value) else NoneVal;
    if dfName.None? || df == NoneVal then
      if |args| == 0 then NoPositional
      else if args[0].Frame? then Resolved(args[0])
      else NotAFrame
    else Resolved(df)
  }

  /**
    A resolved frame is either the named keyword argument, taken without a
    type check, or the first positional argument, which must be a DataFrame.
   */
  lemma ResolvedComesFromCall(dfName: Option<string>, args: seq<Val>, kwargs: map<string, Val>)
    ensures Resolve(dfName, args, kwargs).Resolved? <==> NamedHit(dfName, kwargs) || (|args| > 0 && args[0].Frame?)
    ensures Resolve(dfName, args, kwargs).Resolved? ==>
              var v := Resolve(dfName, args, kwargs).df;
              || (NamedHit(dfName, kwargs) && v == kwargs[dfName.value])
              || (!NamedHit(dfName, kwargs) && v == args[0] && v.Frame?)
  {
  }

  /** The line logged for a frame that went from `prev` to `next`, at the default width. */
  function ShapeLine(cfg: Config, prev: Shape, next: Shape): string {
    FormatLogMessage(cfg.funcName, prev, next, CalculateShapeChange(prev, next),
                     cfg.dfName, cfg.moduleName, DefaultWidth)
  }

  /**
    One call of `wrapper_log_shape_change(*args, **kwargs)`, with `f` standing
    for `func`.
   */
  function Wrapper<E>(cfg: Config, f: Call -> Reply<E>, args: seq<Val>, kwargs: map<string, Val>): (t: Trace<E>)
    // The wrapped function runs at most once, and then with the original arguments.
    ensures t.calls == [] || t.calls == [Call(args, kwargs)]
    // It runs exactly when a frame was found and has a shape.
    ensures t.calls != [] <==>
              Resolve(cfg.dfName, args, kwargs).Resolved? && ShapeOf(Resolve(cfg.dfName, args, kwargs).df).Some?
    // Resolution failures stop the call before anything runs or is logged.
    ensures t.outcome.IndexError? || t.outcome.ValueError? ==> t.calls == [] && t.logged == []
    ensures t.outcome.ValueError? ==>
              && t.outcome.message == NotAFrameMessage
              && !NamedHit(cfg.dfName, kwargs) && |args| > 0 && !args[0].Frame?
    ensures t.outcome.IndexError? <==> !NamedHit(cfg.dfName, kwargs) && |args| == 0
    ensures Resolve(cfg.dfName, args, kwargs) == NotAFrame ==> t == Trace(ValueError(NotAFrameMessage), [], [])
    // `.shape` on a frame or result that has none raises AttributeError and logs nothing.
    ensures Resolve(cfg.dfName, args, kwargs).Resolved? && ShapeOf(Resolve(cfg.dfName, args, kwargs).df).None? ==>
              t == Trace(AttributeError, [], [])
    ensures t.calls != [] && f(Call(args, kwargs)).Returned? && ShapeOf(f(Call(args, kwargs)).value).None? ==>
              t == Trace(AttributeError, [Call(args, kwargs)], [])
    // Exactly one message on success, none otherwise.
    ensures t.outcome.Ok? <==> |t.logged| == 1
    ensures !t.outcome.Ok? ==> t.logged == []
    // A failure of the wrapped function reaches the caller unchanged.
    ensures t.calls != [] && f(Call(args, kwargs)).Raised? ==> t.outcome == Propagated(f(Call(args, kwargs)).error)
    ensures t.outcome.Propagated? ==> t.calls != [] && f(Call(args, kwargs)) == Raised(t.outcome.error)
    // The result is the wrapped function's own, and the line reports its shape change.
    ensures && Resolve(cfg.dfName, args, kwargs).Resolved?
            && ShapeOf(Resolve(cfg.dfName, args, kwargs).df).Some?
            && f(Call(args, kwargs)).Returned?
            && ShapeOf(f(Call(args, kwargs)).value).Some?
            ==> t.outcome == Ok(f(Call(args, kwargs)).value)
    ensures t.outcome.Ok? ==>
              && t.calls != []
              && f(Call(args, kwargs)) == Returned(t.outcome.value)
              && ShapeOf(t.outcome.value).Some?
    ensures t.outcome.Ok? ==>
              t.logged == [ShapeLine(cfg, ShapeOf(Resolve(cfg.dfName, args, kwargs).df).value,
                                     ShapeOf(t.outcome.value).value)]
  {
    match Resolve(cfg.dfName, args, kwargs)
    case NoPositional => Trace(IndexError, [], [])
    case NotAFrame => Trace(ValueError(NotAFrameMessage), [], [])
    case Resolved(df) =>
      match ShapeOf(df)
      case None => Trace(AttributeError, [], [])
      case Some(prev) =>
        var call := Call(args, kwargs);
        match f(call)
        case Raised(e) => Trace(Propagated(e), [call], [])
        case Returned(result) =>
          match ShapeOf(result)
          case None => Trace(AttributeError, [call], [])
          case Some(next) =>
            Trace(Ok(result), [call], [ShapeLine(cfg, prev, next)])
  }

  /**
    The decorator only observes: whenever the frame resolves and has a shape
    and the undecorated call returns a shaped value, the decorated call returns
    that same value; when the undecorated call raises, so does the decorated one.
   */
  lemma WrapperIsTransparent<E>(cfg: Config, f: Call -> Reply<E>, args: seq<Val>, kwargs: map<string, Val>)
    requires Resolve(cfg.dfName, args, kwargs).Resolved?
    requires ShapeOf(Resolve(cfg.dfName, args, kwargs).df).Some?
    ensures f(Call(args, kwargs)).Returned? && ShapeOf(f(Call(args, kwargs)).value).Some? ==>
              Wrapper(cfg, f, args, kwargs).outcome == Ok(f(Call(args, kwargs)).value)
    ensures f(Call(args, kwargs)).Raised? ==>
              Wrapper(cfg, f, args, kwargs).outcome == Propagated(f(Call(args, kwargs)).error)
  {
  }

  /** The configuration of the demonstration's `t`, run as a script. */
  function DemoConfig(): Config {
    Config(Some("df"), "__main__", "t")
  }

  /**
    The repository's own demonstration: `df.pipe(t)` passes a (3, 2) frame
    positionally while `df_name` is "df", so the keyword lookup misses and
    the first positional argument is used. `t` returns `df.iloc[:1]`, a
    (1, 2) frame. The one line logged shows both shapes and the change
    ('-2', '0'), and ends with the call signature.
   */
  lemma PipeDemonstration<E>(t: Call -> Reply<E>, args: seq<Val>, kwargs: map<string, Val>)
    requires args == [Frame(3, 2)] && kwargs == map[]
    requires t(Call(args, kwargs)) == Returned(Frame(1, 2))
    ensures
      var r := Wrapper(DemoConfig(), t, args, kwargs);
      && r.outcome == Ok(Frame(1, 2))
      && r.calls == [Call(args, kwargs)]
      && |r.logged| == 1
  {
    DemonstrationTrace(t, args, kwargs, ShapeOf(args[0]).value, ShapeOf(t(Call(args, kwargs)).value).value);
  }

  /** The line the demonstration logs: both shapes, the change, the call. */
  lemma PipeDemonstrationLine<E>(t: Call -> Reply<E>, args: seq<Val>, kwargs: map<string, Val>)
    requires args == [Frame(3, 2)] && kwargs == map[]
    requires t(Call(args, kwargs)) == Returned(Frame(1, 2))
    ensures
      var logged := Wrapper(DemoConfig(), t, args, kwargs).logged;
      |logged| == 1 && DemonstrationShows(logged[0])
  {
    var prev, next := ShapeOf(args[0]).value, ShapeOf(t(Call(args, kwargs)).value).value;
    DemonstrationTrace(t, args, kwargs, prev, next);
    DemonstrationLine(Wrapper(DemoConfig(), t, args, kwargs).logged[0], prev, next);
  }

  /**
    The demonstration's line: the shapes centred in 18-character columns
    starting at offsets 8 and 31, the change at 49, and the call at the end.
   */
  predicate DemonstrationShows(line: string) {
    && OccursAt(line, "(3, 2)", 8)
    && OccursAt(line, "(1, 2)", 31)
    && OccursAt(line, "('-2', '0')", 49)
    && OccursAt(line, "__main__.t(df)", |line| - 14)
  }

  lemma DemonstrationLine(line: string, prev: Shape, next: Shape)
    requires prev == Shape(3, 2) && next == Shape(1, 2)
    requires line == ShapeLine(DemoConfig(), prev, next)
    ensures DemonstrationShows(line)
  {
    DemonstrationCall();
    DemonstrationColumns(line, prev, next);
    DemonstrationOffsets(line, "(3, 2)", "(1, 2)", "('-2', '0')", "__main__.t(df)");
  }

  lemma DemonstrationOffsets(line: string, p: string, n: string, c: string, call: string)
    requires p == "(3, 2)" && n == "(1, 2)" && c == "('-2', '0')"
    requires ShowsColumns(line, p, n, c, call, 18)
    ensures OccursAt(line, p, 8) && OccursAt(line, n, 31) && OccursAt(line, c, 49)
    ensures OccursAt(line, call, |line| - |call|)
  {
    FittedColumns(line, p, n, c, call, 18);
  }

  // The demonstration's shapes are passed as parameters so that the verifier
  // reasons about the line through the formatter's contract instead of
  // evaluating every character of it.

  lemma DemonstrationTrace<E>(t: Call -> Reply<E>, args: seq<Val>, kwargs: map<string, Val>, prev: Shape, next: Shape)
    requires args == [Frame(3, 2)] && kwargs == map[] && prev == Shape(3, 2) && next == Shape(1, 2)
    requires t(Call(args, kwargs)) == Returned(Frame(1, 2))
    ensures Wrapper(DemoConfig(), t, args, kwargs)
         == Trace(Ok(Frame(1, 2)), [Call(args, kwargs)], [ShapeLine(DemoConfig(), prev, next)])
  {
    assert Resolve(Some("df"), args, kwargs) == Resolved(Frame(3, 2));
  }

  lemma DemonstrationColumns(line: string, prev: Shape, next: Shape)
    requires prev == Shape(3, 2) && next == Shape(1, 2)
    requires ShowsColumns(line, ShapeText(prev), ShapeText(next), ChangeText(CalculateShapeChange(prev, next)),
                          "__main__.t(df)", DefaultWidth)
    ensures ShowsColumns(line, "(3, 2)", "(1, 2)", "('-2', '0')", "__main__.t(df)", 18)
  {
    DemonstrationShapeTexts(prev, next);
    ThreeRowsToOne();
    DemonstrationChangeText(CalculateShapeChange(prev, next));
  }

  lemma DemonstrationCall()
    ensures CallText("__main__", "t", Some("df")) == "__main__.t(df)"
  {
  }

  lemma DemonstrationShapeTexts(prev: Shape, next: Shape)
    requires prev == Shape(3, 2) && next == Shape(1, 2)
    ensures ShapeText(prev) == "(3, 2)"
    ensures ShapeText(next) == "(1, 2)"
  {
    assert IntToString(3) == "3" && IntToString(2) == "2" && IntToString(1) == "1";
  }

  lemma DemonstrationChangeText(c: Change)
    requires c == Change("-2", "0")
    ensures ChangeText(c) == "('-2', '0')"
  {
    DeltaChangeText(c);
  }
}

=== FILE: message.dfy ===
/**
  `format_log_message`: one log line made of three centred, fixed-width
  columns (shape before, shape after, change) and the qualified call
  `module.function(df_name)`.
 */
module Message {
  import opened Wrappers
  import opened Decimal
  import opened PyStr
  import opened ShapeChange

  /** The default of `max_length`. */
  const DefaultWidth: nat := 18

  /** `str(t)` for a 2-tuple whose elements are already rendered. */
  function PairText(a: string, b: string): string {
    "(" + a + ", " + b + ")"
  }

  /** `str(shape)` for a tuple of ints, e.g. "(3, 2)". */
  function ShapeText(s: Shape): string {
    PairText(IntToString(s.rows), IntToString(s.cols))
  }

  /** `str(shape_change)` for a tuple of strings: each element shows its repr, e.g. "('-2', '0')". */
  function ChangeText(c: Change): string {
    PairText(StrRepr(c.rows), StrRepr(c.cols))
  }

  /** `str(df_name)`: the configured name, or "None" when there is none. */
  function NameText(name: Option<string>): string {
    match name
    case None => "None"
    case Some(n) => n
  }

  /** The trailing `module.function(df_name)`. */
  function CallText(moduleName: string, funcName: string, dfName: Option<string>): string {
    moduleName + "." + funcName + "(" + NameText(dfName) + ")"
  }

  /** The fixed skeleton of a line, around its already centred columns. */
  function Line(fp: string, fn: string, fc: string, call: string): string {
    "| " + fp + " --> " + fn + " = " + fc + " | " + call
  }

  /** Where each part of a line sits: the skeleton's separators between the three columns and the call. */
  predicate Laid(line: string, fp: string, fn: string, fc: string, call: string) {
    var a, b, c := 2 + |fp|, 7 + |fp| + |fn|, 10 + |fp| + |fn| + |fc|;
    && |line| == 13 + |fp| + |fn| + |fc| + |call|
    && line[..2] == "| "
    && line[2..a] == fp
    && line[a..a + 5] == " --> "
    && line[a + 5..b] == fn
    && line[b..b + 3] == " = "
    && line[b + 3..c] == fc
    && line[c..c + 3] == " | "
    && line[c + 3..] == call
  }

  lemma LineLayout(fp: string, fn: string, fc: string, call: string)
    ensures Laid(Line(fp, fn, fc, call), fp, fn, fc, call)
  {
  }

  /** `Laid` leaves no freedom: the only string laid out from given parts is their `Line`. */
  lemma LaidIsLine(msg: string, fp: string, fn: string, fc: string, call: string)
    requires Laid(msg, fp, fn, fc, call)
    ensures msg == Line(fp, fn, fc, call)
  {
    var a, b, c := 2 + |fp|, 7 + |fp| + |fn|, 10 + |fp| + |fn| + |fc|;
    assert msg == msg[..2] + msg[2..a] + msg[a..a + 5] + msg[a + 5..b] + msg[b..b + 3]
                  + msg[b + 3..c] + msg[c..c + 3] + msg[c + 3..];
  }

  /**
    What a log line shows: the opening bar, each column's text where
    centring puts it, and the call signature at the end.
   */
  predicate ShowsColumns(msg: string, p: string, n: string, c: string, call: string, width: nat) {
    && |msg| == 13 + Max(width, |p|) + Max(width, |n|) + Max(width, |c|) + |call|
    && msg[0] == '|' && msg[1] == ' '
    && OccursAt(msg, p, 2 + LeftPad(width, |p|))
    && OccursAt(msg, n, 7 + Max(width, |p|) + LeftPad(width, |n|))
    && OccursAt(msg, c, 10 + Max(width, |p|) + Max(width, |n|) + LeftPad(width, |c|))
    && OccursAt(msg, call, |msg| - |call|)
  }

  /** Where the columns' texts sit when each fits in the width. */
  lemma FittedColumns(msg: string, p: string, n: string, c: string, call: string, width: nat)
    requires ShowsColumns(msg, p, n, c, call, width)
    requires |p| <= width && |n| <= width && |c| <= width
    ensures OccursAt(msg, p, 2 + (width - |p|) / 2)
    ensures OccursAt(msg, n, 7 + width + (width - |n|) / 2)
    ensures OccursAt(msg, c, 10 + 2 * width + (width - |c|) / 2)
    ensures OccursAt(msg, call, |msg| - |call|)
  {
  }

  /** Where each column's text lands in a line built from centred columns. */
  lemma CentredLineLayout(p: string, n: string, c: string, call: string, width: nat)
    ensures ShowsColumns(Line(Centre(p, width), Centre(n, width), Centre(c, width), call), p, n, c, call, width)
  {
    var fp, fn, fc := Centre(p, width), Centre(n, width), Centre(c, width);
    LineLayout(fp, fn, fc, call);
    PaddedColumns(Line(fp, fn, fc, call), fp, fn, fc, call, p, n, c, width);
  }

  /** Text found inside a column is found in the line, shifted by the column's offset. */
  lemma PaddedColumns(msg: string, fp: string, fn: string, fc: string, call: string,
                      p: string, n: string, c: string, width: nat)
    requires Laid(msg, fp, fn, fc, call)
    requires |fp| == Max(width, |p|) && OccursAt(fp, p, LeftPad(width, |p|))
    requires |fn| == Max(width, |n|) && OccursAt(fn, n, LeftPad(width, |n|))
    requires |fc| == Max(width, |c|) && OccursAt(fc, c, LeftPad(width, |c|))
    ensures ShowsColumns(msg, p, n, c, call, width)
  {
    assert msg[0] == msg[..2][0] && msg[1] == msg[..2][1];
    var atN, atC := 7 + Max(width, |p|), 10 + Max(width, |p|) + Max(width, |n|);
    assert atN == 7 + |fp| && atC == 10 + |fp| + |fn|;
    SliceOfSlice(msg, 2, fp, LeftPad(width, |p|), p);
    SliceOfSlice(msg, atN, fn, LeftPad(width, |n|), n);
    SliceOfSlice(msg, atC, fc, LeftPad(width, |c|), c);
  }

  /**
    `format_log_message(func, prev_shape, new_shape, shape_change, df_name,
    module_name, max_length)`; `funcName` stands for `func.__name__`.
   */
  function FormatLogMessage(funcName: string, prev: Shape, next: Shape, change: Change,
                            dfName: Option<string>, moduleName: string, width: nat): (msg: string)
    ensures ShowsColumns(msg, ShapeText(prev), ShapeText(next), ChangeText(change),
                         CallText(moduleName, funcName, dfName), width)
    // The separators sit between the three centred fields, whatever their widths.
    ensures Laid(msg, Centre(ShapeText(prev), width), Centre(ShapeText(next), width), Centre(ChangeText(change), width),
                 CallText(moduleName, funcName, dfName))
  {
    var p, n, c := ShapeText(prev), ShapeText(next), ChangeText(change);
    var call := CallText(moduleName, funcName, dfName);
    CentredLineLayout(p, n, c, call, width);
    LineLayout(Centre(p, width), Centre(n, width), Centre(c, width), call);
    Line(Centre(p, width), Centre(n, width), Centre(c, width), call)
  }

  /** A part found inside a field is found in the whole line, shifted by the field's offset. */
  lemma SliceOfSlice(msg: string, at: nat, field: string, i: nat, part: string)
    requires at + |field| <= |msg| && msg[at..at + |field|] == field
    requires OccursAt(field, part, i)
    ensures OccursAt(msg, part, at + i)
  {
    forall k | 0 <= k < |part|
      ensures msg[at + i..at + i + |part|][k] == part[k]
    {
      assert msg[at + i + k] == msg[at..at + |field|][i + k] == field[i + k];
      assert field[i + k] == field[i..i + |part|][k];
    }
  }

  /** A line whose three columns all have width `w`: every separator at an offset fixed by `w`. */
  predicate FixedColumns(msg: string, fp: string, fn: string, fc: string, call: string, w: nat) {
    && |msg| == 13 + 3 * w + |call|
    && msg[..2] == "| "
    && msg[2..2 + w] == fp
    && msg[2 + w..7 + w] == " --> "
    && msg[7 + w..7 + 2 * w] == fn
    && msg[7 + 2 * w..10 + 2 * w] == " = "
    && msg[10 + 2 * w..10 + 3 * w] == fc
    && msg[10 + 3 * w..13 + 3 * w] == " | "
    && msg[13 + 3 * w..] == call
  }

  lemma FixedLayout(fp: string, fn: string, fc: string, call: string, w: nat)
    requires |fp| == |fn| == |fc| == w
    ensures FixedColumns(Line(fp, fn, fc, call), fp, fn, fc, call, w)
  {
    LineLayout(fp, fn, fc, call);
  }

  /**
    When every column's text fits in the width, the separators and columns
    sit at offsets that depend on the width alone, so consecutive lines align.
   */
  lemma ColumnsAlign(funcName: string, prev: Shape, next: Shape, change: Change,
                     dfName: Option<string>, moduleName: string, width: nat)
    requires |ShapeText(prev)| <= width && |ShapeText(next)| <= width && |ChangeText(change)| <= width
    ensures FixedColumns(FormatLogMessage(funcName, prev, next, change, dfName, moduleName, width),
                         Centre(ShapeText(prev), width), Centre(ShapeText(next), width),
                         Centre(ChangeText(change), width), CallText(moduleName, funcName, dfName), width)
  {
    FixedLayout(Centre(ShapeText(prev), width), Centre(ShapeText(next), width),
                Centre(ChangeText(change), width), CallText(moduleName, funcName, dfName), width);
  }

  // ---------------------------------------------------------------------------
  // Reading a line back

  lemma PairTextInjective(a1: string, b1: string, a2: string, b2: string)
    requires ',' !in a1 && ',' !in a2
    requires PairText(a1, b1) == PairText(a2, b2)
    ensures a1 == a2 && b1 == b2
  {
    var t := PairText(a1, b1);
    assert t == "(" + a1 + ", " + b1 + ")" == "(" + a2 + ", " + b2 + ")";
    assert t[1 + |a1|] == ',' && t[1 + |a2|] == ',';
    assert forall i :: 1 <= i < 1 + |a1| ==> t[i] == a1[i - 1] != ',';
    assert forall i :: 1 <= i < 1 + |a2| ==> t[i] == a2[i - 1] != ',';
    assert a1 == t[1..1 + |a1|] == a2;
    assert b1 == t[3 + |a1|..|t| - 1] == b2;
  }

  lemma IntTextHasNoComma(x: int)
    ensures ',' !in IntToString(x)
  {
    var s := IntToString(x);
    if x < 0 {
      forall i | 1 <= i < |s| ensures s[i] != ',' {
        assert s[i] == s[1..][i - 1];
      }
    }
  }

  /** Distinct shapes print differently. */
  lemma ShapeTextInjective(a: Shape, b: Shape)
    ensures ShapeText(a) == ShapeText(b) ==> a == b
  {
    if ShapeText(a) == ShapeText(b) {
      IntTextHasNoComma(a.rows);
      IntTextHasNoComma(b.rows);
      PairTextInjective(IntToString(a.rows), IntToString(a.cols), IntToString(b.rows), IntToString(b.cols));
      ParseIntToString(a.rows);
      ParseIntToString(a.cols);
      ParseIntToString(b.rows);
      ParseIntToString(b.cols);
    }
  }

  /** A change the sign rule produced prints each component in single quotes, unescaped. */
  lemma DeltaChangeText(c: Change)
    requires IsDeltaForm(c.rows) && IsDeltaForm(c.cols)
    ensures ChangeText(c) == PairText("'" + c.rows + "'", "'" + c.cols + "'")
  {
    DeltaFormIsPlain(c.rows);
    DeltaFormIsPlain(c.cols);
    StrReprPlain(c.rows);
    StrReprPlain(c.cols);
  }

  lemma DeltaFormIsPlain(s: string)
    requires IsDeltaForm(s)
    ensures PlainText(s)
  {
    if s != "0" {
      forall i | 1 <= i < |s| ensures IsDigit(s[i]) {
        assert s[i] == s[1..][i - 1];
      }
    }
  }

  lemma QuotedInjective(x: string, y: string)
    requires "'" + x + "'" == "'" + y + "'"
    ensures x == y
  {
    var q := "'" + x + "'";
    assert x == q[1..|q| - 1];
  }

  lemma QuotedDeltaHasNoComma(s: string)
    requires IsDeltaForm(s)
    ensures ',' !in "'" + s + "'"
  {
    var q := "'" + s + "'";
    DeltaFormIsPlain(s);
    assert forall i :: 0 <= i < |q| ==> q[i] == '\'' || q[i] == s[i - 1];
  }

  /** Distinct sign-rule changes print differently. */
  lemma DeltaChangeTextInjective(a: Change, b: Change)
    requires IsDeltaForm(a.rows) && IsDeltaForm(a.cols) && IsDeltaForm(b.rows) && IsDeltaForm(b.cols)
    ensures ChangeText(a) == ChangeText(b) ==> a == b
  {
    if ChangeText(a) == ChangeText(b) {
      DeltaChangeText(a);
      DeltaChangeText(b);
      var qa, qb := "'" + a.rows + "'", "'" + b.rows + "'";
      QuotedDeltaHasNoComma(a.rows);
      QuotedDeltaHasNoComma(b.rows);
      PairTextInjective(qa, "'" + a.cols + "'", qb, "'" + b.cols + "'");
      QuotedInjective(a.rows, b.rows);
      QuotedInjective(a.cols, b.cols);
    }
  }

  lemma PairTextTrimmed(a: string, b: string)
    ensures Trimmed(PairText(a, b))
  {
  }

  /**
    A line whose columns fit in the width can be read back: it determines the
    shape before and the shape after, hence the change, and the call signature.
   */
  lemma MessageDeterminesColumns(f1: string, prev1: Shape, next1: Shape, d1: Option<string>, m1: string,
                                 f2: string, prev2: Shape, next2: Shape, d2: Option<string>, m2: string,
                                 width: nat)
    requires
      var c1, c2 := CalculateShapeChange(prev1, next1), CalculateShapeChange(prev2, next2);
      && |ShapeText(prev1)| <= width && |ShapeText(next1)| <= width && |ChangeText(c1)| <= width
      && |ShapeText(prev2)| <= width && |ShapeText(next2)| <= width && |ChangeText(c2)| <= width
    requires FormatLogMessage(f1, prev1, next1, CalculateShapeChange(prev1, next1), d1, m1, width)
          == FormatLogMessage(f2, prev2, next2, CalculateShapeChange(prev2, next2), d2, m2, width)
    ensures prev1 == prev2 && next1 == next2
    ensures CallText(m1, f1, d1) == CallText(m2, f2, d2)
  {
    var c1, c2 := CalculateShapeChange(prev1, next1), CalculateShapeChange(prev2, next2);
    ColumnsAlign(f1, prev1, next1, c1, d1, m1, width);
    ColumnsAlign(f2, prev2, next2, c2, d2, m2, width);
    PairTextTrimmed(IntToString(prev1.rows), IntToString(prev1.cols));
    PairTextTrimmed(IntToString(prev2.rows), IntToString(prev2.cols));
    PairTextTrimmed(IntToString(next1.rows), IntToString(next1.cols));
    PairTextTrimmed(IntToString(next2.rows), IntToString(next2.cols));
    CentreInjective(ShapeText(prev1), ShapeText(prev2), width);
    CentreInjective(ShapeText(next1), ShapeText(next2), width);
    ShapeTextInjective(prev1, prev2);
    ShapeTextInjective(next1, next2);
  }
}

=== FILE: pystr.dfy ===
/**
  The pieces of Python's string behaviour the logger relies on:
  `str.replace`, `repr` of a string (what `str` of a tuple of strings shows
  for each element) and centring with the `^` format specification.
 */
module PyStr {

  function Max(a: int, b: int): int {
    if a >= b then a else b
  }

  // ---------------------------------------------------------------------------
  // str.replace

  /**
    `s.replace(pat, rep)`: every non-overlapping occurrence of `pat`, found
    left to right, is replaced by `rep`.
   */
  function Replace(s: string, pat: string, rep: string): (r: string)
    requires |pat| > 0
    // A replacement no longer than the pattern never lengthens the text; one of equal length keeps it.
    ensures |rep| <= |pat| ==> |r| <= |s|
    ensures |rep| == |pat| ==> |r| == |s|
    // Text in which the pattern never occurs comes back unchanged.
    ensures (forall i: nat :: !OccursAt(s, pat, i)) ==> r == s
    // An occurrence at the start is replaced.
    ensures OccursAt(s, pat, 0) ==> OccursAt(r, rep, 0)
    decreases |s|
  {
    if |s| < |pat| then s
    else if s[..|pat|] == pat then
      assert OccursAt(s, pat, 0);
      rep + Replace(s[|pat|..], pat, rep)
    else
      OccursInTail(s, pat);
      [s[0]] + Replace(s[1..], pat, rep)
  }

  /** An occurrence in `s[1..]` is an occurrence in `s`, one place later. */
  lemma OccursInTail(s: string, pat: string)
    requires |s| > 0
    ensures forall i: nat :: OccursAt(s[1..], pat, i) ==> OccursAt(s, pat, i + 1)
  {
    forall i: nat | OccursAt(s[1..], pat, i)
      ensures OccursAt(s, pat, i + 1)
    {
      assert s[i + 1..i + 1 + |pat|] == s[1..][i..i + |pat|];
    }
  }

  /** A string in which the first character of `pat` never occurs is left as it is. */
  lemma ReplaceAbsent(s: string, pat: string, rep: string)
    requires |pat| > 0
    requires forall i :: 0 <= i < |s| ==> s[i] != pat[0]
    ensures Replace(s, pat, rep) == s
  {
    assert forall i: nat :: OccursAt(s, pat, i) ==> s[i..i + |pat|][0] == s[i] != pat[0];
  }

  /** A leading occurrence is replaced and the scan resumes right after it. */
  lemma ReplaceLeading(pat: string, rep: string, rest: string)
    requires |pat| > 0
    ensures Replace(pat + rest, pat, rep) == rep + Replace(rest, pat, rep)
  {
    var s := pat + rest;
    assert s[..|pat|] == pat;
    assert s[|pat|..] == rest;
  }

  /** A leading character that cannot start an occurrence is kept. */
  lemma ReplaceKeepsHead(c: char, rest: string, pat: string, rep: string)
    requires |pat| > 0
    requires |rest| + 1 < |pat| || ([c] + rest)[..|pat|] != pat
    ensures Replace([c] + rest, pat, rep) == [c] + Replace(rest, pat, rep)
  {
    var s := [c] + rest;
    assert s[1..] == rest;
  }

  // ---------------------------------------------------------------------------
  // repr(str)

  /** Python's choice of quote: double quotes only when the text holds a single quote and no double quote. */
  function QuoteFor(s: string): char {
    if '\'' in s && '"' !in s then '"' else '\''
  }

  /** One character as it appears inside a quoted Python string literal. */
  function EscapeChar(c: char, q: char): (r: string)
    ensures 1 <= |r| <= 2
    ensures |r| == 1 <==> r[0] != '\\'
  {
    if c == '\\' then "\\\\"
    else if c == q then ['\\', q]
    else if c == '\n' then "\\n"
    else if c == '\r' then "\\r"
    else if c == '\t' then "\\t"
    else [c]
  }

  function Escape(s: string, q: char): string {
    if |s| == 0 then "" else EscapeChar(s[0], q) + Escape(s[1..], q)
  }

  /** `repr(s)`: the text between the chosen quotes, escaped. */
  function StrRepr(s: string): (r: string)
    ensures |r| >= |s| + 2
    ensures r[0] == r[|r| - 1] == QuoteFor(s)
  {
    EscapeLength(s, QuoteFor(s));
    [QuoteFor(s)] + Escape(s, QuoteFor(s)) + [QuoteFor(s)]
  }

  /** `repr` loses nothing: the text between its quotes reads back as the original string. */
  lemma StrReprRoundTrip(s: string)
    ensures var r := StrRepr(s); Unescape(r[1..|r| - 1]) == s
  {
    var r := StrRepr(s);
    assert r[1..|r| - 1] == Escape(s, QuoteFor(s));
    UnescapeEscape(s, QuoteFor(s));
  }

  lemma {:induction false} EscapeLength(s: string, q: char)
    ensures |Escape(s, q)| >= |s|
  {
    if |s| > 0 {
      EscapeLength(s[1..], q);
    }
  }

  /** Reads the body of a quoted literal back: the inverse of `Escape`. */
  function Unescape(t: string): string
    decreases |t|
  {
    if |t| == 0 then ""
    else if t[0] == '\\' && |t| >= 2 then
      var c := t[1];
      [if c == 'n' then '\n' else if c == 'r' then '\r' else if c == 't' then '\t' else c]
      + Unescape(t[2..])
    else [t[0]] + Unescape(t[1..])
  }

  lemma UnescapeStep(c: char, q: char, rest: string)
    requires q != 'n' && q != 'r' && q != 't'
    ensures Unescape(EscapeChar(c, q) + rest) == [c] + Unescape(rest)
  {
    var e := EscapeChar(c, q);
    var t := e + rest;
    if |e| == 2 {
      assert t[2..] == rest;
    } else {
      assert t[1..] == rest;
    }
  }

  /** Escaping loses nothing: the quoted body reads back as the original text. */
  lemma {:induction false} UnescapeEscape(s: string, q: char)
    requires q != 'n' && q != 'r' && q != 't'
    ensures Unescape(Escape(s, q)) == s
  {
    if |s| > 0 {
      UnescapeStep(s[0], q, Escape(s[1..], q));
      UnescapeEscape(s[1..], q);
      assert [s[0]] + s[1..] == s;
    }
  }

  /** Text that `repr` shows verbatim between single quotes. */
  predicate PlainText(s: string) {
    forall i :: 0 <= i < |s| ==> s[i] !in {'\'', '"', '\\', '\n', '\r', '\t'}
  }

  lemma {:induction false} EscapePlain(s: string)
    requires PlainText(s)
    ensures Escape(s, '\'') == s
  {
    if |s| > 0 {
      assert PlainText(s[1..]) by {
        forall i | 0 <= i < |s| - 1 ensures s[1..][i] == s[i + 1] { }
      }
      EscapePlain(s[1..]);
      assert [s[0]] + s[1..] == s;
    }
  }

  lemma StrReprPlain(s: string)
    requires PlainText(s)
    ensures StrRepr(s) == "'" + s + "'"
  {
    assert '\'' !in s;
    EscapePlain(s);
  }

  // ---------------------------------------------------------------------------
  // Centring: f"{s:^{width}}"

  function Spaces(n: nat): (r: string)
    ensures |r| == n
    ensures forall i :: 0 <= i < n ==> r[i] == ' '
  {
    if n == 0 then "" else [' '] + Spaces(n - 1)
  }

  /**
    `r` is `s` with `left` spaces before it and spaces only after it.
   */
  predicate PaddedAt(r: string, s: string, left: nat) {
    && left + |s| <= |r|
    && r[left..left + |s|] == s
    && (forall i :: 0 <= i < left ==> r[i] == ' ')
    && (forall i :: left + |s| <= i < |r| ==> r[i] == ' ')
  }

  /** Left padding Python gives text of length `n` centred in `width`: the smaller half. */
  function LeftPad(width: nat, n: nat): nat {
    (Max(width, n) - n) / 2
  }

  predicate OccursAt(t: string, part: string, i: nat) {
    i + |part| <= |t| && t[i..i + |part|] == part
  }

  /**
    `f"{s:^{width}}"`: pad with spaces to at least `width` characters, the
    smaller half of the padding on the left.
   */
  function Centre(s: string, width: nat): (r: string)
    ensures |r| == Max(width, |s|)
    ensures OccursAt(r, s, LeftPad(width, |s|))
    ensures |s| >= width ==> r == s
  {
    // The padding is max(width - |s|, 0); the left side gets its floor half.
    var left := LeftPad(width, |s|);
    var r := Spaces(left) + s + Spaces(Max(width, |s|) - |s| - left);
    assert r[left..left + |s|] == s;
    r
  }

  /** The two runs of spaces `Centre` puts around its text. */
  lemma CentreLayout(s: string, width: nat)
    ensures Centre(s, width) == Spaces(LeftPad(width, |s|)) + s + Spaces(Max(width, |s|) - |s| - LeftPad(width, |s|))
  {
  }

  /** Centring adds spaces only, on both sides of an unchanged copy. */
  lemma CentrePadded(s: string, width: nat)
    ensures PaddedAt(Centre(s, width), s, LeftPad(width, |s|))
  {
    CentreLayout(s, width);
  }

  /** Two strings of one length that pad the same text at the same offset are equal. */
  lemma PaddedUnique(r: string, c: string, s: string, left: nat)
    requires |r| == |c| && PaddedAt(r, s, left) && PaddedAt(c, s, left)
    ensures r == c
  {
    forall i | 0 <= i < |r| ensures r[i] == c[i] {
      if left <= i < left + |s| {
        assert r[i] == r[left..left + |s|][i - left];
        assert c[i] == c[left..left + |s|][i - left];
      }
    }
  }

  /** `Centre` is the one string of its length that pads `s` with the smaller half of the spaces on the left. */
  lemma CentreUnique(s: string, width: nat, r: string)
    ensures r == Centre(s, width) <==> |r| == Max(width, |s|) && PaddedAt(r, s, LeftPad(width, |s|))
  {
    CentrePadded(s, width);
    if |r| == Max(width, |s|) && PaddedAt(r, s, LeftPad(width, |s|)) {
      PaddedUnique(r, Centre(s, width), s, LeftPad(width, |s|));
    }
  }

  /** Text that does not begin or end with a space. */
  predicate Trimmed(s: string) {
    |s| > 0 && s[0] != ' ' && s[|s| - 1] != ' '
  }

  /** Centring is reversible for trimmed text: the field determines what was centred in it. */
  lemma CentreInjective(s: string, t: string, width: nat)
    requires Trimmed(s) && Trimmed(t)
    requires Centre(s, width) == Centre(t, width)
    ensures s == t
  {
    var c := Centre(s, width);
    var ls, lt := (|c| - |s|) / 2, (|c| - |t|) / 2;
    assert c[ls] == c[ls..ls + |s|][0] == s[0];
    assert c[lt] == c[lt..lt + |t|][0] == t[0];
    assert ls == lt;
    var es, et := ls + |s| - 1, lt + |t| - 1;
    assert c[es] == c[ls..ls + |s|][|s| - 1] == s[|s| - 1];
    assert c[et] == c[lt..lt + |t|][|t| - 1] == t[|t| - 1];
    assert |s| == |t|;
  }
}

=== FILE: shape_change.dfy ===
/**
  `calculate_shape_change`: the per-axis difference between two shapes,
  rendered as signed decimal strings with a bare "0" for no change.
 */
module ShapeChange {
  import opened Wrappers
  import opened Decimal
  import opened PyStr

  /** A `(rows, cols)` pair, as `DataFrame.shape` returns it. */
  datatype Shape = Shape(rows: int, cols: int)

  /** The per-axis change, each component already rendered as a string. */
  datatype Change = Change(rows: string, cols: string)

  /** The strings the sign rule can produce: "0", or a sign and a non-zero numeral. */
  predicate IsDeltaForm(s: string) {
    || s == "0"
    || (|s| >= 2 && (s[0] == '+' || s[0] == '-') && IsNumeral(s[1..]) && s[1..] != "0")
  }

  /**
    The sign rule stated directly: zero is written "0", any other value with
    an explicit sign followed by its magnitude.
   */
  function DeltaString(d: int): (s: string)
    ensures IsDeltaForm(s)
    ensures d == 0 <==> s == "0"
    ensures d > 0 ==> s[0] == '+' && IsNumeral(s[1..]) && NumeralValue(s[1..]) == d
    ensures d < 0 ==> s[0] == '-' && IsNumeral(s[1..]) && NumeralValue(s[1..]) == -d
    ensures ParseInt(s) == Some(d)
  {
    ValueOfNatToString(if d < 0 then -d else d);
    var s := if d == 0 then "0" else if d > 0 then "+" + NatToString(d) else "-" + NatToString(-d);
    assert d != 0 ==> s[1..] == NatToString(if d < 0 then -d else d);
    s
  }

  /** Every string of the delta form is the rendering of the value it parses to. */
  lemma DeltaFormIsCanonical(s: string)
    requires IsDeltaForm(s)
    ensures ParseInt(s).Some? && DeltaString(ParseInt(s).value) == s
  {
    if s != "0" {
      NatToStringOfValue(s[1..]);
      assert s == [s[0]] + s[1..];
    }
  }

  /** One axis as the source computes it: `f"{x:+}".replace("+0", "0")`. */
  function AxisChange(x: int): (r: string)
    ensures r == DeltaString(x)
  {
    AxisChangeIsSignRule(x);
    Replace(SignedString(x), "+0", "0")
  }

  /**
    The replacement only ever fires on zero: Python never writes a leading
    zero in a non-zero integer, so the as-written expression is the sign rule.
   */
  lemma AxisChangeIsSignRule(x: int)
    ensures Replace(SignedString(x), "+0", "0") == DeltaString(x)
  {
    var s := SignedString(x);
    if x == 0 {
      assert s == "+0" + "";
      ReplaceLeading("+0", "0", "");
    } else if x > 0 {
      var n := NatToString(x);
      assert s == "+" + n == ['+'] + n;
      assert n[0] != '0';
      assert (['+'] + n)[..2] == ['+', n[0]];
      ReplaceKeepsHead('+', n, "+0", "0");
      ReplaceAbsent(n, "+0", "0");
    } else {
      ReplaceAbsent(s, "+0", "0");
    }
  }

  /** `calculate_shape_change(old_shape, new_shape)`. */
  function CalculateShapeChange(before: Shape, after: Shape): (r: Change)
    ensures r.rows == DeltaString(after.rows - before.rows)
    ensures r.cols == DeltaString(after.cols - before.cols)
    ensures ParseInt(r.rows) == Some(after.rows - before.rows)
    ensures ParseInt(r.cols) == Some(after.cols - before.cols)
  {
    Change(AxisChange(after.rows - before.rows), AxisChange(after.cols - before.cols))
  }

  function FlipSign(c: char): char {
    if c == '+' then '-' else if c == '-' then '+' else c
  }

  /** `b` is `a` with its sign flipped; "0" is its own mirror. */
  predicate Mirrored(a: string, b: string) {
    && (a == "0" <==> b == "0")
    && (a != "0" ==> |a| == |b| >= 1 && b[0] == FlipSign(a[0]) && b[1..] == a[1..])
  }

  lemma DeltaStringNegate(d: int)
    ensures Mirrored(DeltaString(d), DeltaString(-d))
  {
    var a, b := DeltaString(d), DeltaString(-d);
    if d != 0 {
      NatToStringOfValue(a[1..]);
      NatToStringOfValue(b[1..]);
    }
  }

  /** Swapping the two shapes flips the sign of every non-zero component. */
  lemma SwapMirrorsChange(before: Shape, after: Shape)
    ensures Mirrored(CalculateShapeChange(before, after).rows, CalculateShapeChange(after, before).rows)
    ensures Mirrored(CalculateShapeChange(before, after).cols, CalculateShapeChange(after, before).cols)
  {
    DeltaStringNegate(after.rows - before.rows);
    DeltaStringNegate(after.cols - before.cols);
  }

  /** The case exercised by the repository's own demonstration: three rows cut to one. */
  lemma ThreeRowsToOne()
    ensures CalculateShapeChange(Shape(3, 2), Shape(1, 2)) == Change("-2", "0")
  {
    assert NatToString(2) == "2";
  }
}

=== FILE: wrappers.dfy ===
/** The optional-value datatype shared by the modules of this model. */
module Wrappers {

  /** A value that may be absent: Python's `None` versus a present value. */
  datatype Option<+T> = None | Some(value: T)
}
